=== FILE: README.md ===
# HappyShop back end: category and product request handling in Dafny

This project models the request-handling core of the HappyShop e-commerce REST back end. That core is the two
Express controllers `categoryController.js` and `productController.js`. Each handler becomes a pure function, or
a method where the source loops. The function takes an in-memory collection (`Store.Table`, a
`map<Id, Record>` plus the next identifier to hand out) and the parsed request. It returns the one response the
client receives and the collection afterwards (`Http.Outcome`). A route identifier is resolved first by
`CategoryById` or `ProductById`. The resolved record is then passed to the handler as an explicit argument.

Modules:

- `Wrappers`: `Option` and `Result`.
- `Json`: request values: strings, integers, booleans, lists, null.
- `Numerals`: decimal integer text. A multipart form sends every number as text, and Joi's `number()` converts it.
- `Schema`: the Joi rules the controllers use. These are required keys, `string()` with `min`/`max`, `number()`,
  and the rejection of unknown keys. The first violation in schema order is reported.
- `Slug`: `slugify` with the library's default options.
- `Store`: the collection, and its listing in creation (identifier) order.
- `Paging`: the store's filter, the sort directions its query builder accepts, and its `skip`/`limit` window. A limit of 0 means no limit, and a negative limit
  counts as its magnitude.
- `Http`: status codes, error bodies, responses, resolver outcomes.
- `CategoryController`, `ProductController`, `ProductSearch`: the handlers.
- `AsWritten`: the control flow of three handlers as written, for the findings below. `updateProduct` is
  modelled from a body that validated, and `createCategory` from a body whose `name` is a string.

The handlers use early-return semantics: the first failed check answers the request and nothing is stored after
it. The source sends an error and keeps executing. What that does is modelled separately in `AsWritten` and
reported under Findings.

Points where the code's behaviour is easy to misread:

- `slugify` is called without options (categoryController.js:28 and :107), and its `lower` option is off by
  default. The slug of "Shoes" is therefore "Shoes", not "shoes".
- `updateCategory` has its validation commented out. A rename accepts any string name. It checks neither the
  length nor duplicates.
- `updateProduct` answers 400 when no file is sent. The handler itself intends to keep the old image in that
  case: productController.js:98 guards the upload with `if (req.file)`, and line 111 falls back with
  `image || product.image`. The corrected `ProductController.UpdateProduct` keeps it. The as-written
  behaviour is a finding.

## Model

| member | source | states |
|---|---|---|
| `Numerals.ParseShow` | Back-End/controllers/productController.js:10-11 | the decimal text of any integer, as a form field carries it, converts back to that integer |
| `Schema.Validate` | Back-End/controllers/productController.js:7-15 | a body passes exactly when every declared field is present and conforms and no undeclared key is present; an unknown-key failure carries exactly the undeclared keys, and only when every declared field conforms |
| `Slug.SlugHasNoWhitespace` | Back-End/controllers/categoryController.js:28 | a slug never contains whitespace, in JavaScript's sense of `\s` (ASCII whitespace, the Unicode space separators, U+2028, U+2029 and U+FEFF) |
| `Slug.SlugifyIdempotent` | Back-End/controllers/categoryController.js:107 | the slug of a slug is itself, so re-deriving a stored slug never changes it |
| `Store.RowsExactly` | Back-End/controllers/categoryController.js:69-72 | listing a collection yields exactly its stored records |
| `Store.RowsAfterInsert` | Back-End/controllers/categoryController.js:28-30 | a newly created record is listed after every existing one |
| `Paging.DirectionExamples` | Back-End/controllers/productController.js:133-140 | a direction is accepted in any letter case (`DESC`, `Ascending`), while words such as `up`, the empty text and `2` are refused |
| `Paging.Window` | Back-End/controllers/categoryController.js:69-72 | the window is the contiguous run of the records starting at `skip`; it holds at most the magnitude of a nonzero `limit`, and everything from `skip` on when `limit` is 0 |
| `CategoryController.ValidateName` | Back-End/controllers/categoryController.js:12-19 | a create body is accepted exactly when its only key is `name`, a string of 3 to 31 characters, and the accepted value is that string |
| `CategoryController.CreateCategory` | Back-End/controllers/categoryController.js:10-37 | 201 exactly when the name is valid and not yet taken; invalid names get 400 with the validator's message and taken names 400 "Category already exists"; a failure stores nothing; a success stores one new category under a fresh identifier with `slug == Slugify(name)`; the slug invariant and name uniqueness are preserved |
| `CategoryController.CategoryById` | Back-End/controllers/categoryController.js:40-52 | a stored identifier attaches exactly the stored category; any other identifier ends the request with 404 "Category not found !" and attaches nothing |
| `CategoryController.GetCategory` | Back-End/controllers/categoryController.js:57-59 | 200 with the stored category exactly when the identifier resolves, 404 otherwise |
| `CategoryController.PageNumber` | Back-End/controllers/categoryController.js:65 | the page is never 0: a missing, non-numeric or zero page is 1, any other number is kept |
| `CategoryController.PageLimit` | Back-End/controllers/categoryController.js:66 | the limit is the request's limit, or 5 when there is none |
| `CategoryController.Skip` | Back-End/controllers/categoryController.js:67 | page 1 skips nothing; pages from 1 with a non-negative limit never skip a negative count |
| `CategoryController.AllCategories` | Back-End/controllers/categoryController.js:64-84 | the response echoes the computed page; its categories are exactly the window of the collection in creation order that starts after `(page-1)*limit` records and holds what the limit lets through; it holds at most the magnitude of a nonzero limit, only stored categories, and without parameters the first five in creation order; a negative skip is the store's error, 500 |
| `CategoryController.UpdateCategory` | Back-End/controllers/categoryController.js:89-116 | a string `name` is accepted with 200; the category keeps its identifier, takes the new name and the slug of that name, and nothing else in the collection changes; a non-string name makes `slugify` throw and nothing is saved; the slug invariant is preserved |
| `CategoryController.DeleteCategory` | Back-End/controllers/categoryController.js:121-131 | the answer is 204; the category is gone and every other category is untouched |
| `CategoryController.UpdateCategoryAt` | Back-End/controllers/categoryController.js:40-52 | an identifier that does not resolve gets 404 and changes nothing; otherwise a string name gives 200 with the new name and its slug written back at the same identifier and nothing else changed, and any other name gives 500 with nothing saved |
| `CategoryController.DeleteCategoryAt` | Back-End/controllers/categoryController.js:121-131 | an identifier that does not resolve gets 404 before anything is removed; a stored one is removed with 204 |
| `CategoryController.CreatedIsResolvable` | Back-End/controllers/categoryController.js:28-49 | a category just created resolves, under its identifier, to itself |
| `CategoryController.SecondCreateRejected` | Back-End/controllers/categoryController.js:24-26 | repeating a successful create is refused with 400 "Category already exists" and stores nothing |
| `CategoryController.CreateThenDelete` | Back-End/controllers/categoryController.js:28-30 | deleting a category just created restores the collection's records |
| `CategoryController.ConsecutivePages` | Back-End/controllers/categoryController.js:67 | consecutive pages start exactly `limit` categories apart |
| `CategoryController.EveryCategoryOnItsPage` | Back-End/controllers/categoryController.js:65-71 | with a positive limit, the category at position `i` is served on page `i / limit + 1` at position `i % limit` |
| `ProductController.ValidateProduct` | Back-End/controllers/productController.js:7-19 | a body is accepted exactly when `name`, `description`, `category` are non-empty strings, `price`, `quantity` are safe integers (or their decimal text), and no other key is present; the accepted fields are the body's values |
| `ProductController.CheckUpload` | Back-End/controllers/productController.js:20-30 | a file is accepted exactly when present and at most 3,000,000 bytes, yielding its path; otherwise "image could not upload" or "File size exceeds the allowable limit of(3MB)" |
| `ProductController.CreateProduct` | Back-End/controllers/productController.js:5-43 | 201 exactly when the body is valid and a file of at most 3,000,000 bytes is attached; every failure is 400 and stores nothing; a success stores one new product holding exactly the validated fields and the file's path as image |
| `ProductController.ProductById` | Back-End/controllers/productController.js:45-56 | a stored identifier attaches exactly the stored product; any other ends the request with 404 "Product not found !" |
| `ProductController.ShowProduct` | Back-End/controllers/productController.js:58-62 | 200 with the stored product exactly when the identifier resolves, 404 otherwise |
| `ProductController.RemoveProduct` | Back-End/controllers/productController.js:64-73 | the answer is 204; the product is gone and every other product is untouched |
| `ProductController.RemoveProductAt` | Back-End/controllers/productController.js:64-73 | an identifier that does not resolve gets 404 before anything is removed; a stored one is removed with 204 |
| `ProductController.KeptImage` | Back-End/controllers/productController.js:111 | a new upload's non-empty path replaces the image; without a file the stored image is kept |
| `ProductController.UpdateProduct` | Back-End/controllers/productController.js:75-123 | 200 exactly when the body is valid and any file is at most 3,000,000 bytes; the validated fields overwrite the product's, the identifier is unchanged, the image is the new path or, without a file, the old image; nothing else in the collection changes; failures are 400 and store nothing |
| `ProductController.UpdateProductAt` | Back-End/controllers/productController.js:75-123 | an identifier that does not resolve gets 404 and changes nothing; otherwise the reply is 200 exactly when the body validates and any file is at most 3,000,000 bytes, the validated fields overwrite the stored product under the same identifier and nothing else in the collection changes, an update without a file keeps the stored image, and every failure is 400 with nothing stored, carrying the validator's first violation for an invalid body |
| `ProductController.ImageSurvivesUpdates` | Back-End/controllers/productController.js:98-112 | two successive updates without a file leave the original image in place |
| `ProductController.CreatedIsShown` | Back-End/controllers/productController.js:32-62 | a product just created is shown under its identifier |
| `ProductController.ListQuery` | Back-End/controllers/productController.js:132-134 | the list query defaults to sort key `_id`, order `asc`, limit 6; given values are kept |
| `ProductController.AllProducts` | Back-End/controllers/productController.js:125-149 | the response is the image-free summaries of the first products in creation order, as many as the limit allows (6 by default); with limit 0 every product comes back; a sort direction other than asc, ascending, desc, descending, 1 or -1 (in any letter case) gets 500 |
| `ProductController.ListRelated` | Back-End/controllers/productController.js:151-166 | every related product is stored, shares the resolved product's category and has another identifier; exactly as many are returned as the limit lets through of the related products (6 by default, all for limit 0); with limit 0 every such product is returned |
| `ProductSearch.BuildFindArgs` | Back-End/controllers/productController.js:177-188 | a filter key is kept exactly when its value list is non-empty; `price` becomes the range from its first to its second value; every other kept key is copied unchanged |
| `ProductSearch.MatchesIffWanted` | Back-End/controllers/productController.js:177-191 | the built filter selects exactly the products whose fields lie in the requested lists and whose price lies in the inclusive requested range |
| `ProductSearch.SearchQuery` | Back-End/controllers/productController.js:169-172 | the search query defaults to order `desc`, sort key `_id`, limit 100; given values are kept |
| `ProductSearch.Hits` | Back-End/controllers/productController.js:190-191 | `find(findArgs)` yields exactly the stored records the built filter matches |
| `ProductSearch.ShownAreWanted` | Back-End/controllers/productController.js:190-196 | every record taken from the matches is a stored product that the request's filters ask for |
| `ProductSearch.AllWantedHit` | Back-End/controllers/productController.js:177-191 | in a well-formed collection, every stored product the filters ask for is among the matches |
| `ProductSearch.SearchProducts` | Back-End/controllers/productController.js:168-208 | `size` equals the number of returned records; each returned record is a stored product the filters ask for; at most the limit are returned; with skip 0 and limit 0 every wanted product is returned; a sort direction the query builder does not accept gets 500, and otherwise a negative skip is 400 "Products not found"; the default direction is accepted |
| `AsWritten.CreateProduct` | Back-End/controllers/productController.js:15-38 | as written, `create` is reached exactly when a file of at most 3,000,000 bytes is attached, whatever the validation said |
| `AsWritten.CreateProductContinuesAfterRejection` | Back-End/controllers/productController.js:17-36 | an invalid body with an acceptable file gets 400 and still reaches `create`, where the corrected handler stores nothing |
| `AsWritten.CreateProductWithoutPrice` | Back-End/controllers/productController.js:17-36 | a body without `price` plus a 10-byte image gets 400 and reaches `create` |
| `AsWritten.UpdateProduct` | Back-End/controllers/productController.js:92-121 | as written, an update without a file gets 400; the document is saved exactly when an earlier request left a path in the global `image`, and then with that path |
| `AsWritten.UpdateWithoutFileNeverKeepsImage` | Back-End/controllers/productController.js:92-111 | without a file the client always gets 400, and any save uses the stale global path |
| `AsWritten.UpdateWithoutFileTakesStaleImage` | Back-End/controllers/productController.js:105-112 | a product is saved with another request's image path while the client is told 400 |
| `AsWritten.CreateCategory` | Back-End/controllers/categoryController.js:16-36 | as written, `create` is reached exactly when the name is not taken, whatever the validation said |
| `AsWritten.CreateCategoryWithShortName` | Back-End/controllers/categoryController.js:18-28 | the name "ab" gets 400 and still reaches `create`, where the corrected handler stores nothing |

## Left out

- `Back-End/index.js` is not part of this model. It only wires up the Express app, middleware and the listener.
- `Back-End/controllers/handlersFactory.js` is not part of this model. It is a wrapper around `Model.create`
  with no logic of its own.
- The database query machinery is left out: `populate`, `exec` callbacks and the projection mechanics.
  `select("-image")` appears only as the image-free `Summary` record. The populated category reference stays an
  identifier.
- The requested sort is computed (`ListQuery`, `SearchQuery`) but not applied. Listings come in creation order,
  which is the default `_id` ascending.
- ProductController.AllProducts: does not apply a non-default `sortedBy` or `order`. Its results are in creation order.
  The accepted directions are those of the query builder's `sort` (asc, ascending, desc, descending, 1, -1,
  in any letter case). Any other direction makes `sort` throw. index.js:43 passes that
  throw to the app's global error middleware, which is not part of this model, so the status 500 is assumed.
- ProductSearch.SearchProducts: does not apply the `desc` order or any other accepted direction. An unknown
  direction gets 500 as for `allProducts`. Completeness is stated only for skip 0 and limit 0. A request without
  `limit` gets 100, so past 100 matches it is not complete.
- Schema.Validate: an unknown-key failure carries every undeclared key. Joi stops at the first error and names
  only the first undeclared key in the body's key order. The body is an unordered map here, so which key that is
  is not modelled.
- AsWritten.UpdateProduct: an invalid body is not modelled. The source sends 400 at line 89. When a file of at
  most 3,000,000 bytes is attached, it then still saves Joi's partly converted value, whose contents are not
  modelled. Without a file, or with a larger one, the second send at line 94 or lines 100-102 throws because the
  headers were already sent, and nothing is saved.
- AsWritten.CreateCategory: requires a string `name`. A name of another type also gets 400 and continues, but
  what the duplicate lookup and `slugify` then do with it is not modelled.
- Storage failures (the `.catch` and `err` branches) are left out, because the store is assumed reliable. Two failures a
  request can cause are modelled: a negative `skip`, which MongoDB rejects, and a sort direction the query builder
  does not accept, which throws before the query runs.
- Asynchronous ordering is left out. `removeProduct` and `updateCategory` answer before their store callback runs.
  The model applies the change and answers.
- The race between two concurrent creates of the same category name is left out. Each request is one step.
- Joi internals are left out. Violations are a datatype, not Joi's message text. Number conversion accepts
  optionally negative decimal integer text only: no fractions, exponents, `+` or surrounding spaces.
- Only integers are modelled: prices and quantities are integers, and non-integer pages such as `1.5` are not modelled.
- Slug.Slugify: `slugify` internals are left out, and the model keeps characters the library changes or drops:
  - Unicode normalisation (`normalize()`) is not modelled.
  - Its character map (for example `&` to `and`, `é` to `e`) is not modelled.
  - Its default removal pattern is not modelled. After mapping, it drops every character that is not an ASCII
    letter, digit or `_`, not whitespace, and not one of `$*_+~.()'"!-:@`. That includes `#`, `,`, `/`, and
    letters without a map entry such as CJK characters.
- String lengths count Unicode scalar values, not UTF-16 code units.
- Record identifiers are natural numbers. Malformed identifier text, which the resolvers also answer with 404, is not modelled.
- Query and body numbers arrive already parsed, as `Option<int>`. `None` means absent or JavaScript-falsy.
  `parseInt` prefix parsing, non-numeric `limit` text, and a JSON number 0 sent as `limit` are not modelled.
- A missing search `skip` is `parseInt(undefined)`, which is `NaN`. The model reads it as 0, because what the
  driver does with `NaN` is not modelled.
- Search filter values that are not lists are not modelled. For those, JavaScript reads `.length` of a string or
  of a number. Mongoose's casting of numeric text in filter values is not modelled either: a bound that is not an
  integer matches nothing.
- A `price` filter with one value gives an upper bound of `undefined`. The model reads that bound as matching nothing.
- Sending a non-string category name to `updateCategory` makes `slugify` throw. The global error middleware is not
  part of this model, so the status 500 for that throw is assumed.
- Deleting a category that products still reference has no defined policy in the source. The model leaves the
  products as they are.

## Findings

| source | as written | input that shows it | evidently intended | confidence | as-written member | corrected member |
|---|---|---|---|---|---|---|
| Back-End/controllers/productController.js:17-36 | a validation failure sends 400, but the handler does not return and calls `productModel.create` with the rejected value | a body without `price` and a 10-byte image (`AsWritten.CreateProductWithoutPrice`) | stop at the 400; no create call | not executed; whether the database then keeps the record depends on its schema, which is not part of this model | AsWritten.CreateProduct | ProductController.CreateProduct |
| Back-End/controllers/productController.js:92-111 | an update without a file is answered 400 "image could not upload"; `image` is never declared, so line 105 writes a global shared by all requests and line 111 reads that stale path, or throws when no upload ever assigned it | product image `uploads/mug.png`, no file, an earlier request's `uploads/lamp.png` in the global (`AsWritten.UpdateWithoutFileTakesStaleImage`) | a missing file is tolerated and `image || product.image` keeps the stored image with 200 | not executed; relies on the module running in sloppy mode, since the file has no "use strict" | AsWritten.UpdateProduct | ProductController.UpdateProduct |
| Back-End/controllers/categoryController.js:18-28 | a name failing the 3-31 length check gets 400, but the handler continues to the duplicate check and `CategoryModel.create` | `{name: "ab"}` on an empty collection (`AsWritten.CreateCategoryWithShortName`) | stop at the 400; no create call | not executed; whether the database keeps the record depends on its schema | AsWritten.CreateCategory | CategoryController.CreateCategory |

=== FILE: aswritten.dfy ===
/**
 * The control flow of three handlers as written, where sending an error
 * response does not stop the handler. Express keeps the first response
 * a request sends; later sends only throw. Each model reports that first
 * response together with the store call the handler still reaches. The
 * corrected behaviour is the one in `ProductController` and
 * `CategoryController`. `UpdateProduct` starts from a body that validated and
 * `CreateCategory` from a body whose `name` is a string; the other bodies of
 * those two handlers are not modelled here.
 */
module AsWritten {
  import opened Wrappers
  import opened Json
  import opened Store
  import opened Http
  import Slug
  import ProductController
  import CategoryController

  /** The response the client receives, and whether the store's `create` is still called. */
  datatype CreateTrace<T> = CreateTrace(sent: Response<T>, createCalled: bool)

  /** The response the client receives, the document `save` receives, and the implicit global `image`. */
  datatype UpdateTrace = UpdateTrace(
    sent: Response<ProductController.Product>,
    saved: Option<ProductController.Product>,
    image: Option<string>)

  /**
   * `createProduct` as written: the validation error is answered but the
   * handler goes on; a missing file is answered and then `req.file.size`
   * throws; an oversized file returns; otherwise `create` is called.
   */
  function CreateProduct(t: Table<ProductController.Product>, body: Body, file: Option<ProductController.File>)
    : (tr: CreateTrace<ProductController.Product>)
    ensures tr.createCalled <==> file.Some? && file.value.size <= ProductController.MaxImageSize
    ensures !ProductController.ValidFields(body) ==> tr.sent.Fail? && tr.sent.error.Invalid?
  {
    var checked := ProductController.ValidateProduct(body);
    var first: Option<Response<ProductController.Product>> :=
      if checked.Failure? then Some(Fail(BadRequest, Invalid(checked.error))) else None;
    match file
    case None =>
      CreateTrace(first.GetOr(Fail(BadRequest, Message(ProductController.NoImage))), false)
    case Some(f) =>
      if f.size > ProductController.MaxImageSize then
        CreateTrace(first.GetOr(Fail(BadRequest, Message(ProductController.ImageTooLarge))), false)
      else
        match checked
        case Failure(v) => CreateTrace(Fail(BadRequest, Invalid(v)), true)
        case Success(v) =>
          var p := ProductController.Product(t.nextId, v.name, v.description, v.price, v.quantity, v.category, f.path);
          CreateTrace(Reply(Created, p), true)
  }

  /** A rejected body with an acceptable file: the client gets 400 and `create` is still called. */
  lemma CreateProductContinuesAfterRejection(t: Table<ProductController.Product>, body: Body, file: Option<ProductController.File>)
    requires !ProductController.ValidFields(body)
    requires file.Some? && file.value.size <= ProductController.MaxImageSize
    ensures CreateProduct(t, body, file).sent.status == BadRequest
    ensures CreateProduct(t, body, file).createCalled
    ensures ProductController.CreateProduct(t, body, file).table == t
  {
  }

  /** A body without `price` and a 10-byte image. */
  lemma CreateProductWithoutPrice(t: Table<ProductController.Product>)
    ensures var body := map["name" := VStr("Mug"), "description" := VStr("Blue"),
                            "quantity" := VNum(3), "category" := VStr("c1")];
      var tr := CreateProduct(t, body, Some(ProductController.File(10, "uploads/mug.png")));
      tr.sent.status == BadRequest && tr.createCalled
  {
    var body := map["name" := VStr("Mug"), "description" := VStr("Blue"),
                    "quantity" := VNum(3), "category" := VStr("c1")];
    assert "price" !in body;
  }

  /**
   * `updateProduct` as written, after the body validated to `value`: a
   * missing file is answered with 400 and the handler goes on; a file sets
   * the undeclared name `image`, which becomes a global shared by all
   * requests (`global` is its value left by earlier requests, None when it
   * was never assigned); reading it while unassigned throws; otherwise the
   * product is saved with `image || product.image`.
   */
  function UpdateProduct(p: ProductController.Product, value: ProductController.Fields,
                         file: Option<ProductController.File>, global: Option<string>)
    : (tr: UpdateTrace)
    ensures file.None? ==> tr.sent == Fail(BadRequest, Message(ProductController.NoImage))
    ensures file.None? ==> (tr.saved.None? <==> global.None?)
    ensures file.None? && tr.saved.Some? && global.value != "" ==> tr.saved.value.image == global.value
    ensures file.Some? && file.value.size <= ProductController.MaxImageSize ==>
      && tr.sent.Reply? && tr.saved == Some(tr.sent.value) && tr.image == Some(file.value.path)
      && tr.sent.value.image == (if file.value.path != "" then file.value.path else p.image)
  {
    match file
    case Some(f) =>
      if f.size > ProductController.MaxImageSize then
        UpdateTrace(Fail(BadRequest, Message(ProductController.ImageTooLarge)), None, global)
      else
        var u := ProductController.Extend(p, value, if f.path != "" then f.path else p.image);
        UpdateTrace(Reply(Ok, u), Some(u), Some(f.path))
    case None =>
      var sent := Fail(BadRequest, Message(ProductController.NoImage));
      match global
      case None => UpdateTrace(sent, None, None)
      case Some(g) => UpdateTrace(sent, Some(ProductController.Extend(p, value, if g != "" then g else p.image)), global)
  }

  /**
   * Without a file, the stored image is never kept with a success: the
   * client gets 400, and the document either is not saved or is saved with
   * the image path an earlier request left in the global.
   */
  lemma UpdateWithoutFileNeverKeepsImage(p: ProductController.Product, value: ProductController.Fields,
                                         global: Option<string>)
    ensures var tr := UpdateProduct(p, value, None, global);
      && tr.sent.status == BadRequest
      && (tr.saved.Some? ==> global.Some? && (global.value != "" ==> tr.saved.value.image == global.value))
  {
  }

  /** An earlier upload to another product replaces this product's image. */
  lemma UpdateWithoutFileTakesStaleImage()
    ensures var p := ProductController.Product(7, "Mug", "Blue", 5, 3, "c1", "uploads/mug.png");
      var value := ProductController.Fields("Mug", "Red", 6, 3, "c1");
      var tr := UpdateProduct(p, value, None, Some("uploads/lamp.png"));
      && tr.sent.status == BadRequest
      && tr.saved.Some?
      && tr.saved.value.image == "uploads/lamp.png" != p.image
  {
  }

  /**
   * `createCategory` as written, for a body whose `name` is a string: the
   * validation error is answered but the handler goes on to the duplicate
   * check and to `create`.
   */
  function CreateCategory(t: Table<CategoryController.Category>, body: Body)
    : (tr: CreateTrace<CategoryController.Category>)
    requires "name" in body && body["name"].VStr?
    ensures tr.createCalled <==> !CategoryController.NameTaken(t, body["name"].s)
    ensures !CategoryController.ValidName(body) ==> tr.sent.Fail? && tr.sent.error.Invalid?
  {
    var name := body["name"].s;
    var checked := CategoryController.ValidateName(body);
    var first: Option<Response<CategoryController.Category>> :=
      if checked.Failure? then Some(Fail(BadRequest, Invalid(checked.error))) else None;
    if CategoryController.NameTaken(t, name) then
      CreateTrace(first.GetOr(Fail(BadRequest, Message(CategoryController.AlreadyExists))), false)
    else
      var c := CategoryController.Category(t.nextId, name, Slug.Slugify(name));
      CreateTrace(first.GetOr(Reply(Created, c)), true)
  }

  /** A two-letter name on an empty collection: 400 is sent and `create` is still called. */
  lemma CreateCategoryWithShortName()
    ensures var tr := CreateCategory(Table(map[], 0), map["name" := VStr("ab")]);
      tr.sent.status == BadRequest && tr.createCalled
    ensures CategoryController.CreateCategory(Table(map[], 0), map["name" := VStr("ab")]).table == Table(map[], 0)
  {
  }
}

=== FILE: categories.dfy ===
/**
 * The category handlers: create with a unique, validated name; resolve a
 * route identifier; list a page; rename; delete. Every category's slug is
 * the slug of its name.
 */
module CategoryController {
  import opened Wrappers
  import opened Json
  import Schema
  import Slug
  import opened Store
  import opened Http
  import Paging

  datatype Category = Category(id: Id, name: string, slug: string)

  /** The body of a list response: the page served and its categories. */
  datatype Listing = Listing(page: int, categories: seq<Category>)

  const MinNameLength: nat := 3
  const MaxNameLength: nat := 31
  const NameSchema: seq<Schema.Field> := [Schema.Field("name", Schema.Text(MinNameLength, Some(MaxNameLength)))]

  const DefaultPage: int := 1
  const DefaultLimit: int := 5

  const AlreadyExists: string := "Category already exists"
  const NotFoundMessage: string := "Category not found !"
  /** The error `slugify` throws for a name that is not a string. */
  const NameNotAString: string := "slugify: string argument expected"

  ghost predicate WellKeyed(t: Table<Category>) {
    forall id :: id in t.rows ==> t.rows[id].id == id
  }

  ghost predicate SlugsFollowNames(t: Table<Category>) {
    forall id :: id in t.rows ==> t.rows[id].slug == Slug.Slugify(t.rows[id].name)
  }

  /** The collection invariant every handler keeps. */
  ghost predicate Consistent(t: Table<Category>) {
    Valid(t) && WellKeyed(t) && SlugsFollowNames(t)
  }

  ghost predicate NamesUnique(t: Table<Category>) {
    forall i, j :: i in t.rows && j in t.rows && t.rows[i].name == t.rows[j].name ==> i == j
  }

  /** `CategoryModel.findOne({ name })` finds a category. */
  predicate NameTaken(t: Table<Category>, name: string) {
    exists id :: id in t.rows && t.rows[id].name == name
  }

  /** A create body the validator admits: only `name`, a string of 3 to 31 characters. */
  ghost predicate ValidName(body: Body) {
    && "name" in body
    && body["name"].VStr?
    && MinNameLength <= |body["name"].s| <= MaxNameLength
    && body.Keys <= {"name"}
  }

  function ValidateName(body: Body): (r: Result<string, Schema.Violation>)
    ensures r.Success? <==> ValidName(body)
    ensures r.Success? ==> r.value == body["name"].s
  {
    assert NameSchema[0].key == "name";
    assert Schema.Keys(NameSchema) == {"name"};
    match Schema.Validate(NameSchema, body)
    case Some(v) => Failure(v)
    case None =>
      assert NameSchema[0].key in body;
      Success(body["name"].s)
  }

  /** `createCategory`: validate, refuse a taken name, then store name and slug. */
  function CreateCategory(t: Table<Category>, body: Body): (o: Outcome<Category, Category>)
    ensures o.response.Reply? <==> ValidName(body) && !NameTaken(t, body["name"].s)
    ensures !ValidName(body) ==> o.response == Fail(BadRequest, Invalid(ValidateName(body).error))
    ensures ValidName(body) && NameTaken(t, body["name"].s) ==>
      o.response == Fail(BadRequest, Message(AlreadyExists))
    ensures o.response.Fail? ==> o.table == t
    ensures o.response.Reply? ==>
      var c := o.response.value;
      && o.response.status == Created
      && c.name == body["name"].s
      && c.slug == Slug.Slugify(c.name)
      && o.table.rows == t.rows[c.id := c]
      && (Valid(t) ==> c.id !in t.rows)
    ensures Consistent(t) ==> Consistent(o.table)
    ensures NamesUnique(t) ==> NamesUnique(o.table)
  {
    match ValidateName(body)
    case Failure(v) => Outcome(Fail(BadRequest, Invalid(v)), t)
    case Success(name) =>
      if NameTaken(t, name) then Outcome(Fail(BadRequest, Message(AlreadyExists)), t)
      else
        var c := Category(t.nextId, name, Slug.Slugify(name));
        Outcome(Reply(Created, c), Insert(t, c))
  }

  /** `categoryById`: attach the stored category, or end the request with 404. */
  function CategoryById(t: Table<Category>, id: Id): (r: Resolved<Category>)
    ensures r.Attached? <==> id in t.rows
    ensures r.Attached? ==> r.record == t.rows[id]
    ensures r.Rejected? ==> r == Rejected(NotFound, Message(NotFoundMessage))
  {
    match Find(t, id)
    case Some(c) => Attached(c)
    case None => Rejected(NotFound, Message(NotFoundMessage))
  }

  /** `GET /category/:id`: the resolver followed by `getCategory`. */
  function GetCategory(t: Table<Category>, id: Id): (r: Response<Category>)
    ensures r.Reply? <==> id in t.rows
    ensures r.Reply? ==> r.status == Ok && r.value == t.rows[id]
    ensures r.Fail? ==> r == Fail(NotFound, Message(NotFoundMessage))
  {
    match CategoryById(t, id)
    case Attached(c) => Reply(Ok, c)
    case Rejected(status, e) => Fail(status, e)
  }

  /** `req.query.page * 1 || 1`: a missing, non-numeric or zero page reads as page 1. */
  function PageNumber(page: Option<int>): (p: int)
    ensures p != 0
    ensures page.Some? && page.value != 0 ==> p == page.value
    ensures page.None? || page.value == 0 ==> p == DefaultPage
  {
    if page.Some? && page.value != 0 then page.value else DefaultPage
  }

  /** `req.query.limit || 5`. */
  function PageLimit(limit: Option<int>): (l: int)
    ensures limit.Some? ==> l == limit.value
    ensures limit.None? ==> l == DefaultLimit
  {
    limit.GetOr(DefaultLimit)
  }

  /** How many categories precede a page. */
  function Skip(page: int, limit: int): (s: int)
    ensures page == 1 ==> s == 0
    ensures page >= 1 && limit >= 0 ==> s >= 0
  {
    (page - 1) * limit
  }

  /** `allCategories`: one page of the collection in creation order. */
  function AllCategories(t: Table<Category>, page: Option<int>, limit: Option<int>): (r: Response<Listing>)
    ensures r.Reply? <==> Skip(PageNumber(page), PageLimit(limit)) >= 0
    ensures r.Fail? ==> r == Fail(ServerError, StorageFailure)
    ensures r.Reply? ==> r.status == Ok && r.value.page == PageNumber(page)
    ensures r.Reply? && PageLimit(limit) != 0 ==> |r.value.categories| <= Paging.Abs(PageLimit(limit))
    ensures r.Reply? ==> forall c :: c in r.value.categories ==> c in t.rows.Values
    ensures r.Reply? ==>
      r.value.categories == Paging.Window(Rows(t), Skip(PageNumber(page), PageLimit(limit)), PageLimit(limit))
    ensures page.None? && limit.None? ==>
      r.Reply? && r.value.page == 1 && r.value.categories == Rows(t)[..Paging.Min(5, |Rows(t)|)]
  {
    var p := PageNumber(page);
    var l := PageLimit(limit);
    var skip := Skip(p, l);
    if skip < 0 then Fail(ServerError, StorageFailure)
    else
      RowsSound(t);
      Reply(Ok, Listing(p, Paging.Window(Rows(t), skip, l)))
  }

  /** `updateCategory`: the new name and its slug replace the old ones; nothing else changes. */
  function UpdateCategory(t: Table<Category>, c: Category, body: Body): (o: Outcome<Category, Category>)
    ensures o.response.Reply? <==> "name" in body && body["name"].VStr?
    ensures o.response.Reply? ==>
      var u := o.response.value;
      && o.response.status == Ok
      && u.id == c.id
      && u.name == body["name"].s
      && u.slug == Slug.Slugify(u.name)
      && o.table.rows == t.rows[c.id := u]
      && o.table.nextId == t.nextId
    ensures o.response.Fail? ==> o.response == Fail(ServerError, Message(NameNotAString)) && o.table == t
    ensures Consistent(t) && c.id in t.rows ==> Consistent(o.table)
  {
    if "name" in body && body["name"].VStr? then
      var name := body["name"].s;
      var u := c.(name := name, slug := Slug.Slugify(name));
      Outcome(Reply(Ok, u), Replace(t, c.id, u))
    else
      Outcome(Fail(ServerError, Message(NameNotAString)), t)
  }

  /** `deleteCategory`: the category leaves the collection and the answer is 204. */
  function DeleteCategory(t: Table<Category>, c: Category): (o: Outcome<(), Category>)
    ensures o.response == Reply(NoContent, ())
    ensures c.id !in o.table.rows
    ensures forall id :: id in t.rows && id != c.id ==> id in o.table.rows && o.table.rows[id] == t.rows[id]
    ensures o.table.rows.Keys <= t.rows.Keys
    ensures Consistent(t) ==> Consistent(o.table)
  {
    Outcome(Reply(NoContent, ()), Delete(t, c.id))
  }

  /** `PUT /category/:id`: the resolver followed by `updateCategory`. */
  function UpdateCategoryAt(t: Table<Category>, id: Id, body: Body): (o: Outcome<Category, Category>)
    ensures id !in t.rows ==> o == Outcome(Fail(NotFound, Message(NotFoundMessage)), t)
    ensures id in t.rows ==> (o.response.Reply? <==> "name" in body && body["name"].VStr?)
    ensures WellKeyed(t) && id in t.rows && o.response.Reply? ==>
      && o.response.status == Ok
      && o.response.value == t.rows[id].(name := body["name"].s, slug := Slug.Slugify(body["name"].s))
      && o.table == Table(t.rows[id := o.response.value], t.nextId)
    ensures id in t.rows && o.response.Fail? ==>
      o.response == Fail(ServerError, Message(NameNotAString)) && o.table == t
    ensures Consistent(t) ==> Consistent(o.table)
  {
    match CategoryById(t, id)
    case Rejected(status, e) => Outcome(Fail(status, e), t)
    case Attached(c) => UpdateCategory(t, c, body)
  }

  /** `DELETE /category/:id`: a 404 before anything is removed, or the deletion. */
  function DeleteCategoryAt(t: Table<Category>, id: Id): (o: Outcome<(), Category>)
    ensures id !in t.rows ==> o == Outcome(Fail(NotFound, Message(NotFoundMessage)), t)
    ensures WellKeyed(t) && id in t.rows ==>
      o.response == Reply(NoContent, ()) && o.table.rows == t.rows - {id}
    ensures Consistent(t) ==> Consistent(o.table)
  {
    match CategoryById(t, id)
    case Rejected(status, e) => Outcome(Fail(status, e), t)
    case Attached(c) => DeleteCategory(t, c)
  }

  /** A category just created is what its identifier now resolves to. */
  lemma CreatedIsResolvable(t: Table<Category>, body: Body)
    requires Valid(t)
    requires CreateCategory(t, body).response.Reply?
    ensures var c := CreateCategory(t, body).response.value;
      GetCategory(CreateCategory(t, body).table, c.id) == Reply(Ok, c)
  {
  }

  /** Creating the same category twice: the second request is refused and stores nothing. */
  lemma SecondCreateRejected(t: Table<Category>, body: Body)
    requires CreateCategory(t, body).response.Reply?
    ensures var t' := CreateCategory(t, body).table;
      CreateCategory(t', body) == Outcome(Fail(BadRequest, Message(AlreadyExists)), t')
  {
    var o := CreateCategory(t, body);
    var c := o.response.value;
    assert o.table.rows[c.id].name == body["name"].s;
  }

  /** Deleting a category just created restores the collection's records. */
  lemma CreateThenDelete(t: Table<Category>, body: Body)
    requires Valid(t)
    requires CreateCategory(t, body).response.Reply?
    ensures var o := CreateCategory(t, body);
      DeleteCategory(o.table, o.response.value).table.rows == t.rows
  {
    var o := CreateCategory(t, body);
    var c := o.response.value;
    assert o.table.rows - {c.id} == t.rows;
  }

  /** Consecutive pages start `limit` categories apart. */
  lemma ConsecutivePages(page: int, limit: int)
    ensures Skip(page + 1, limit) == Skip(page, limit) + limit
  {
  }

  /**
   * With a positive limit, the category at position `i` of the collection is
   * served on page `i / limit + 1`, at position `i % limit`.
   */
  lemma EveryCategoryOnItsPage(t: Table<Category>, limit: int, i: nat)
    requires limit > 0 && i < |Rows(t)|
    ensures var r := AllCategories(t, Some(i / limit + 1), Some(limit));
      && r.Reply?
      && i % limit < |r.value.categories|
      && r.value.categories[i % limit] == Rows(t)[i]
  {
    var p := i / limit + 1;
    assert Skip(p, limit) == (i / limit) * limit;
    assert (i / limit) * limit + i % limit == i;
  }
}

=== FILE: http.dfy ===
/** The responses a handler sends and the outcome of resolving a route identifier. */
module Http {
  import Schema
  import opened Store

  const Ok: nat := 200
  const Created: nat := 201
  const NoContent: nat := 204
  const BadRequest: nat := 400
  const NotFound: nat := 404
  const ServerError: nat := 500

  /** The error body of a failed request. */
  datatype Error =
    | Invalid(violation: Schema.Violation)   // the validator's first message
    | Message(text: string)                  // a fixed message of the handler
    | StorageFailure                         // the store's own error object

  /** The one response a request receives: a payload or an error, with its status. */
  datatype Response<+T> =
    | Reply(status: nat, value: T)
    | Fail(status: nat, error: Error)

  /** A route parameter resolved to a record, or the request ended with an error. */
  datatype Resolved<+T> =
    | Attached(record: T)
    | Rejected(status: nat, error: Error)

  /** What a handler leaves behind: the response it sent and the collection afterwards. */
  datatype Outcome<+T, R> = Outcome(response: Response<T>, table: Table<R>)
}

=== FILE: json.dfy ===
/** The loosely typed values a parsed request body or query string carries. */
module Json {

  /** One JSON value, restricted to integers for numbers. */
  datatype Value =
    | VStr(s: string)
    | VNum(n: int)
    | VBool(b: bool)
    | VList(items: seq<Value>)
    | VNull

  /** A request body: the fields of a JSON object or of a multipart form. */
  type Body = map<string, Value>
}

=== FILE: numerals.dfy ===
/** Decimal integer text, as a multipart form carries every number. */
module Numerals {
  import opened Wrappers

  predicate IsDigit(c: char) {
    '0' <= c <= '9'
  }

  predicate AllDigits(s: string) {
    forall i :: 0 <= i < |s| ==> IsDigit(s[i])
  }

  function DigitValue(c: char): (d: nat)
    requires IsDigit(c)
    ensures d < 10
  {
    (c as int) - ('0' as int)
  }

  function Digit(d: nat): (c: char)
    requires d < 10
    ensures IsDigit(c) && DigitValue(c) == d
  {
    ('0' as int + d) as char
  }

  /** The value of a string of decimal digits, most significant first. */
  function DigitsValue(s: string): nat
    requires AllDigits(s)
    decreases |s|
  {
    if s == [] then 0 else DigitsValue(s[..|s| - 1]) * 10 + DigitValue(s[|s| - 1])
  }

  /** Reads an optionally negative decimal integer; any other text is not a number. */
  function Parse(s: string): (r: Option<int>)
    ensures r.Some? <==> (|s| > 0 && AllDigits(s)) || (|s| > 1 && s[0] == '-' && AllDigits(s[1..]))
    ensures |s| > 0 && AllDigits(s) ==> r == Some(DigitsValue(s))
  {
    if |s| > 0 && AllDigits(s) then Some(DigitsValue(s))
    else if |s| > 1 && s[0] == '-' && AllDigits(s[1..]) then Some(-(DigitsValue(s[1..]) as int))
    else None
  }

  /** The shortest decimal text of a natural number. */
  function ShowNat(n: nat): (s: string)
    ensures |s| > 0 && AllDigits(s)
    decreases n
  {
    if n < 10 then [Digit(n)] else ShowNat(n / 10) + [Digit(n % 10)]
  }

  /** The decimal text a client sends for an integer form field. */
  function Show(n: int): string {
    if n < 0 then "-" + ShowNat(-n) else ShowNat(n)
  }

  lemma {:induction false} DigitsValueOfShowNat(n: nat)
    ensures DigitsValue(ShowNat(n)) == n
    decreases n
  {
    if n >= 10 {
      var s := ShowNat(n);
      assert s[..|s| - 1] == ShowNat(n / 10);
      DigitsValueOfShowNat(n / 10);
    }
  }

  /** Every integer written in decimal reads back as itself. */
  lemma ParseShow(n: int)
    ensures Parse(Show(n)) == Some(n)
  {
    if n < 0 {
      var s := Show(n);
      assert s[0] == '-' && s[1..] == ShowNat(-n);
      assert !IsDigit(s[0]);
      DigitsValueOfShowNat(-n);
    } else {
      DigitsValueOfShowNat(n);
    }
  }
}

=== FILE: paging.dfy ===
/**
 * The filter and the `skip`/`limit` window the document store applies to a
 * query, and the sort directions its query builder accepts.
 */
module Paging {

  /** What the query builder's `sort` throws for a direction it does not know. */
  const InvalidSort: string := "Invalid sort value"

  /** `toLowerCase()` on one character, restricted to ASCII letters. */
  function LowerChar(c: char): (l: char)
    ensures 'A' <= c <= 'Z' ==> 'a' <= l <= 'z' && l as int == c as int + 32
    ensures !('A' <= c <= 'Z') ==> l == c
  {
    if 'A' <= c <= 'Z' then (c as int + 32) as char else c
  }

  function LowerAscii(s: string): (r: string)
    ensures |r| == |s|
    ensures forall i :: 0 <= i < |s| ==> r[i] == LowerChar(s[i])
  {
    seq(|s|, i requires 0 <= i < |s| => LowerChar(s[i]))
  }

  /** The directions `sort` knows, after lower-casing. */
  const Directions: set<string> := {"asc", "ascending", "desc", "descending", "1", "-1"}

  /**
   * A direction `sort` accepts, compared after `toLowerCase()`. No character
   * outside ASCII lower-cases to one of the letters these words use, so ASCII
   * lower-casing decides membership exactly.
   */
  predicate IsDirection(order: string) {
    LowerAscii(order) in Directions
  }

  /** The handlers' default directions are accepted. */
  lemma DefaultDirections()
    ensures IsDirection("asc") && IsDirection("desc")
  {
    assert LowerAscii("asc") == "asc";
    assert LowerAscii("desc") == "desc";
  }

  /** Upper-case spellings are accepted; other words are not. */
  lemma DirectionExamples()
    ensures IsDirection("DESC") && IsDirection("Ascending")
    ensures !IsDirection("up") && !IsDirection("") && !IsDirection("2")
  {
    assert LowerAscii("DESC") == "desc";
    assert LowerAscii("Ascending") == "ascending";
    assert LowerAscii("up") == "up";
    assert LowerAscii("2") == "2";
  }

  function Abs(n: int): nat {
    if n < 0 then -n else n
  }

  function Min(a: nat, b: nat): nat {
    if a <= b then a else b
  }

  /**
   * How many of `available` records a limit lets through: a limit of 0 means
   * no limit, and a negative limit is read as its magnitude.
   */
  function Cap(limit: int, available: nat): (n: nat)
    ensures n <= available
    ensures limit == 0 ==> n == available
    ensures limit != 0 ==> n == Min(Abs(limit), available)
  {
    if limit == 0 then available else Min(Abs(limit), available)
  }

  /** `skip` records dropped from the front, then at most `limit` kept. */
  function Window<T>(xs: seq<T>, skip: nat, limit: int): (w: seq<T>)
    ensures limit != 0 ==> |w| <= Abs(limit)
    ensures skip <= |xs| ==> skip + |w| <= |xs| && w == xs[skip..skip + |w|]
    ensures skip >= |xs| ==> w == []
    ensures limit == 0 && skip <= |xs| ==> |w| == |xs| - skip
    ensures limit != 0 && skip <= |xs| ==> |w| == Min(Abs(limit), |xs| - skip)
  {
    var rest := if skip <= |xs| then xs[skip..] else [];
    rest[..Cap(limit, |rest|)]
  }

  /** A window holds only elements of what it was cut from. */
  lemma WindowWithin<T>(xs: seq<T>, skip: nat, limit: int)
    ensures forall x :: x in Window(xs, skip, limit) ==> x in xs
  {
    var w := Window(xs, skip, limit);
    forall x | x in w ensures x in xs {
      var i :| 0 <= i < |w| && w[i] == x;
      assert x == xs[skip + i];
    }
  }

  /** The elements of `xs` that satisfy `keep`, in their original order. */
  function Filter<T(!new)>(xs: seq<T>, keep: T -> bool): (ys: seq<T>)
    ensures |ys| <= |xs|
    ensures forall y :: y in ys <==> y in xs && keep(y)
  {
    if xs == [] then []
    else (if keep(xs[0]) then [xs[0]] else []) + Filter(xs[1..], keep)
  }
}

=== FILE: products.dfy ===
/**
 * The product handlers: create with a validated body and a mandatory image
 * upload; resolve a route identifier; show; update fields and optionally the
 * image; remove; list; list the products related to one.
 */
module ProductController {
  import opened Wrappers
  import opened Json
  import Schema
  import opened Store
  import opened Http
  import Paging

  datatype Product = Product(
    id: Id,
    name: string,
    description: string,
    price: int,
    quantity: int,
    category: string,   // the referenced category's identifier, as text
    image: string)      // the stored path of the uploaded image

  /** The fields a create or update body supplies once validated. */
  datatype Fields = Fields(name: string, description: string, price: int, quantity: int, category: string)

  /** A product as list responses show it: everything but the image. */
  datatype Summary = Summary(id: Id, name: string, description: string, price: int, quantity: int, category: string)

  /** The upload middleware's description of the attached file. */
  datatype File = File(size: nat, path: string)

  /** The list query a handler issues: sort key, direction, window. */
  datatype Query = Query(sortBy: string, order: string, limit: int, skip: int)

  /** Largest accepted image, `Math.pow(10, 6) * 3` bytes. */
  const MaxImageSize: nat := 3_000_000

  const ProductSchema: seq<Schema.Field> := [
    Schema.Field("name", Schema.Text(0, None)),
    Schema.Field("description", Schema.Text(0, None)),
    Schema.Field("price", Schema.Number),
    Schema.Field("quantity", Schema.Number),
    Schema.Field("category", Schema.Text(0, None))
  ]

  const ProductKeys: set<string> := {"name", "description", "price", "quantity", "category"}

  const NoImage: string := "image could not upload"
  const ImageTooLarge: string := "File size exceeds the allowable limit of(3MB)"
  const NotFoundMessage: string := "Product not found !"

  const ListSortBy: string := "_id"
  const ListOrder: string := "asc"
  const ListLimit: int := 6
  const RelatedLimit: int := 6

  ghost predicate WellKeyed(t: Table<Product>) {
    forall id :: id in t.rows ==> t.rows[id].id == id
  }

  ghost predicate Consistent(t: Table<Product>) {
    Valid(t) && WellKeyed(t)
  }

  /** A required string field: a non-empty string. */
  ghost predicate IsText(v: Value) {
    v.VStr? && v.s != ""
  }

  /** A required number field: a number, or decimal text of one, within the safe range. */
  ghost predicate IsNumber(v: Value) {
    var n := Schema.AsNumber(v);
    n.Some? && -Schema.MaxSafeInteger <= n.value <= Schema.MaxSafeInteger
  }

  /** A body the validator admits: the five fields with their types, and nothing else. */
  ghost predicate ValidFields(body: Body) {
    && "name" in body && IsText(body["name"])
    && "description" in body && IsText(body["description"])
    && "price" in body && IsNumber(body["price"])
    && "quantity" in body && IsNumber(body["quantity"])
    && "category" in body && IsText(body["category"])
    && body.Keys <= ProductKeys
  }

  lemma ProductSchemaKeys()
    ensures Schema.Keys(ProductSchema) == ProductKeys
  {
    var S := ProductSchema;
    assert S[0].key == "name" && S[1].key == "description" && S[2].key == "price";
    assert S[3].key == "quantity" && S[4].key == "category";
    forall k | k in Schema.Keys(S) ensures k in ProductKeys {
      var i :| 0 <= i < |S| && S[i].key == k;
    }
  }

  lemma AdmittedIsValid(body: Body)
    ensures Schema.Admits(ProductSchema, body) ==> ValidFields(body)
  {
    ProductSchemaKeys();
    var S := ProductSchema;
    assert S[0] == Schema.Field("name", Schema.Text(0, None));
    assert S[1] == Schema.Field("description", Schema.Text(0, None));
    assert S[2] == Schema.Field("price", Schema.Number);
    assert S[3] == Schema.Field("quantity", Schema.Number);
    assert S[4] == Schema.Field("category", Schema.Text(0, None));
  }

  lemma ValidIsAdmitted(body: Body)
    ensures ValidFields(body) ==> Schema.Admits(ProductSchema, body)
  {
    ProductSchemaKeys();
    var S := ProductSchema;
    if ValidFields(body) {
      forall i | 0 <= i < |S|
        ensures S[i].key in body && Schema.Conforms(S[i].kind, body[S[i].key])
      {
        assert i == 0 || i == 1 || i == 2 || i == 3 || i == 4;
      }
    }
  }

  /** The five-field schema admits exactly the bodies `ValidFields` describes. */
  lemma ProductSchemaMeaning(body: Body)
    ensures Schema.Admits(ProductSchema, body) <==> ValidFields(body)
  {
    AdmittedIsValid(body);
    ValidIsAdmitted(body);
  }

  /** The create and update validation: the typed fields, or the first violation. */
  function ValidateProduct(body: Body): (r: Result<Fields, Schema.Violation>)
    ensures r.Success? <==> ValidFields(body)
    ensures r.Success? ==>
      && r.value.name == body["name"].s
      && r.value.description == body["description"].s
      && Some(r.value.price) == Schema.AsNumber(body["price"])
      && Some(r.value.quantity) == Schema.AsNumber(body["quantity"])
      && r.value.category == body["category"].s
  {
    ProductSchemaMeaning(body);
    match Schema.Validate(ProductSchema, body)
    case Some(v) => Failure(v)
    case None =>
      Success(Fields(
        body["name"].s,
        body["description"].s,
        Schema.AsNumber(body["price"]).value,
        Schema.AsNumber(body["quantity"]).value,
        body["category"].s))
  }

  /** The upload guard of a create: a file is required and may not exceed the ceiling. */
  function CheckUpload(file: Option<File>): (r: Result<string, string>)
    ensures r.Success? <==> file.Some? && file.value.size <= MaxImageSize
    ensures r.Success? ==> r.value == file.value.path
    ensures file.None? ==> r == Failure(NoImage)
    ensures file.Some? && file.value.size > MaxImageSize ==> r == Failure(ImageTooLarge)
  {
    match file
    case None => Failure(NoImage)
    case Some(f) => if f.size > MaxImageSize then Failure(ImageTooLarge) else Success(f.path)
  }

  /** `createProduct`: validate, guard the upload, then store the fields with the image path. */
  function CreateProduct(t: Table<Product>, body: Body, file: Option<File>): (o: Outcome<Product, Product>)
    ensures o.response.Reply? <==> ValidateProduct(body).Success? && file.Some? && file.value.size <= MaxImageSize
    ensures o.response.Fail? ==> o.response.status == BadRequest && o.table == t
    ensures ValidateProduct(body).Failure? ==> o.response == Fail(BadRequest, Invalid(ValidateProduct(body).error))
    ensures ValidateProduct(body).Success? && file.None? ==> o.response == Fail(BadRequest, Message(NoImage))
    ensures ValidateProduct(body).Success? && file.Some? && file.value.size > MaxImageSize ==>
      o.response == Fail(BadRequest, Message(ImageTooLarge))
    ensures o.response.Reply? ==>
      var p := o.response.value;
      && o.response.status == Created
      && ValidateProduct(body) == Success(Fields(p.name, p.description, p.price, p.quantity, p.category))
      && p.image == file.value.path
      && o.table.rows == t.rows[p.id := p]
      && (Valid(t) ==> p.id !in t.rows)
    ensures Consistent(t) ==> Consistent(o.table)
  {
    match ValidateProduct(body)
    case Failure(v) => Outcome(Fail(BadRequest, Invalid(v)), t)
    case Success(f) =>
      match CheckUpload(file)
      case Failure(m) => Outcome(Fail(BadRequest, Message(m)), t)
      case Success(image) =>
        var p := Product(t.nextId, f.name, f.description, f.price, f.quantity, f.category, image);
        Outcome(Reply(Created, p), Insert(t, p))
  }

  /** `productById`: attach the stored product, or answer 404. */
  function ProductById(t: Table<Product>, id: Id): (r: Resolved<Product>)
    ensures r.Attached? <==> id in t.rows
    ensures r.Attached? ==> r.record == t.rows[id]
    ensures r.Rejected? ==> r == Rejected(NotFound, Message(NotFoundMessage))
  {
    match Find(t, id)
    case Some(p) => Attached(p)
    case None => Rejected(NotFound, Message(NotFoundMessage))
  }

  /** `GET /product/:id`: the resolver followed by `showProduct`. */
  function ShowProduct(t: Table<Product>, id: Id): (r: Response<Product>)
    ensures r.Reply? <==> id in t.rows
    ensures r.Reply? ==> r.status == Ok && r.value == t.rows[id]
    ensures r.Fail? ==> r == Fail(NotFound, Message(NotFoundMessage))
  {
    match ProductById(t, id)
    case Attached(p) => Reply(Ok, p)
    case Rejected(status, e) => Fail(status, e)
  }

  /** `removeProduct`: the product leaves the collection and the answer is 204. */
  function RemoveProduct(t: Table<Product>, p: Product): (o: Outcome<(), Product>)
    ensures o.response == Reply(NoContent, ())
    ensures p.id !in o.table.rows
    ensures forall id :: id in t.rows && id != p.id ==> id in o.table.rows && o.table.rows[id] == t.rows[id]
    ensures o.table.rows.Keys <= t.rows.Keys
    ensures Consistent(t) ==> Consistent(o.table)
  {
    Outcome(Reply(NoContent, ()), Delete(t, p.id))
  }

  /** `DELETE /product/:id`: a 404 before anything is removed, or the removal. */
  function RemoveProductAt(t: Table<Product>, id: Id): (o: Outcome<(), Product>)
    ensures id !in t.rows ==> o == Outcome(Fail(NotFound, Message(NotFoundMessage)), t)
    ensures WellKeyed(t) && id in t.rows ==>
      o.response == Reply(NoContent, ()) && o.table.rows == t.rows - {id}
    ensures Consistent(t) ==> Consistent(o.table)
  {
    match ProductById(t, id)
    case Rejected(status, e) => Outcome(Fail(status, e), t)
    case Attached(p) => RemoveProduct(t, p)
  }

  /** `image || product.image`: a new upload's path, else the stored image. */
  function KeptImage(file: Option<File>, stored: string): (image: string)
    ensures file.None? ==> image == stored
    ensures file.Some? && file.value.path != "" ==> image == file.value.path
  {
    if file.Some? && file.value.path != "" then file.value.path else stored
  }

  /** `_.extend(product, value)`: the fields and the image replaced, the identifier kept. */
  function Extend(p: Product, f: Fields, image: string): (u: Product)
    ensures u.id == p.id && u.image == image
    ensures Fields(u.name, u.description, u.price, u.quantity, u.category) == f
  {
    Product(p.id, f.name, f.description, f.price, f.quantity, f.category, image)
  }

  /**
   * `updateProduct`, with a missing file tolerated as its line 111 intends:
   * validate, reject an oversized file, then overwrite the five fields and
   * the image (kept when no file is sent). Identifier unchanged.
   */
  function UpdateProduct(t: Table<Product>, p: Product, body: Body, file: Option<File>): (o: Outcome<Product, Product>)
    ensures o.response.Reply? <==> ValidateProduct(body).Success? && (file.None? || file.value.size <= MaxImageSize)
    ensures o.response.Fail? ==> o.response.status == BadRequest && o.table == t
    ensures ValidateProduct(body).Failure? ==> o.response == Fail(BadRequest, Invalid(ValidateProduct(body).error))
    ensures ValidateProduct(body).Success? && file.Some? && file.value.size > MaxImageSize ==>
      o.response == Fail(BadRequest, Message(ImageTooLarge))
    ensures o.response.Reply? ==>
      var u := o.response.value;
      && o.response.status == Ok
      && u.id == p.id
      && ValidateProduct(body) == Success(Fields(u.name, u.description, u.price, u.quantity, u.category))
      && (file.None? ==> u.image == p.image)
      && (file.Some? && file.value.path != "" ==> u.image == file.value.path)
      && o.table.rows == t.rows[p.id := u]
      && o.table.nextId == t.nextId
    ensures Consistent(t) && p.id in t.rows ==> Consistent(o.table)
  {
    match ValidateProduct(body)
    case Failure(v) => Outcome(Fail(BadRequest, Invalid(v)), t)
    case Success(f) =>
      if file.Some? && file.value.size > MaxImageSize then
        Outcome(Fail(BadRequest, Message(ImageTooLarge)), t)
      else
        var u := Extend(p, f, KeptImage(file, p.image));
        Outcome(Reply(Ok, u), Replace(t, p.id, u))
  }

  /** `PUT /product/:id`: the resolver followed by `updateProduct`. */
  function UpdateProductAt(t: Table<Product>, id: Id, body: Body, file: Option<File>): (o: Outcome<Product, Product>)
    ensures id !in t.rows ==> o == Outcome(Fail(NotFound, Message(NotFoundMessage)), t)
    ensures id in t.rows ==>
      (o.response.Reply? <==> ValidateProduct(body).Success? && (file.None? || file.value.size <= MaxImageSize))
    ensures id in t.rows && o.response.Fail? ==> o.response.status == BadRequest && o.table == t
    ensures id in t.rows && ValidateProduct(body).Failure? ==>
      o.response == Fail(BadRequest, Invalid(ValidateProduct(body).error))
    ensures WellKeyed(t) && id in t.rows && o.response.Reply? ==>
      var u := o.response.value;
      && o.response.status == Ok
      && u.id == id
      && ValidateProduct(body) == Success(Fields(u.name, u.description, u.price, u.quantity, u.category))
      && (file.None? ==> u.image == t.rows[id].image)
      && (file.Some? && file.value.path != "" ==> u.image == file.value.path)
      && o.table == Table(t.rows[id := u], t.nextId)
    ensures Consistent(t) ==> Consistent(o.table)
  {
    match ProductById(t, id)
    case Rejected(status, e) => Outcome(Fail(status, e), t)
    case Attached(p) => UpdateProduct(t, p, body, file)
  }

  /** The list responses' projection: the image is left out. */
  function Summarize(p: Product): Summary {
    Summary(p.id, p.name, p.description, p.price, p.quantity, p.category)
  }

  function Summaries(ps: seq<Product>): (ss: seq<Summary>)
    ensures |ss| == |ps|
    ensures forall i :: 0 <= i < |ps| ==> ss[i] == Summarize(ps[i])
  {
    seq(|ps|, i requires 0 <= i < |ps| => Summarize(ps[i]))
  }

  /** `x ? x : fallback` for a query string: a missing or empty value takes the fallback. */
  function OrDefault(param: Option<string>, fallback: string): (s: string)
    ensures param.Some? && param.value != "" ==> s == param.value
    ensures param.None? || param.value == "" ==> s == fallback
  {
    if param.Some? && param.value != "" then param.value else fallback
  }

  /** The query `allProducts` issues: `_id`, ascending, 6 records unless the request says otherwise. */
  function ListQuery(sortedBy: Option<string>, order: Option<string>, limit: Option<int>): (q: Query)
    ensures sortedBy.None? ==> q.sortBy == ListSortBy
    ensures order.None? ==> q.order == ListOrder
    ensures limit.None? ==> q.limit == ListLimit
    ensures limit.Some? ==> q.limit == limit.value
    ensures sortedBy.Some? && sortedBy.value != "" ==> q.sortBy == sortedBy.value
    ensures order.Some? && order.value != "" ==> q.order == order.value
    ensures q.sortBy != "" && q.order != "" && q.skip == 0
  {
    Query(OrDefault(sortedBy, ListSortBy), OrDefault(order, ListOrder), limit.GetOr(ListLimit), 0)
  }

  /**
   * `allProducts`: the first `limit` products of the collection, without
   * images. A direction `sort` does not accept throws before the query runs.
   */
  function AllProducts(t: Table<Product>, sortedBy: Option<string>, order: Option<string>, limit: Option<int>)
    : (r: Response<seq<Summary>>)
    ensures r.Reply? <==> Paging.IsDirection(ListQuery(sortedBy, order, limit).order)
    ensures order.None? ==> r.Reply?
    ensures r.Fail? ==> r == Fail(ServerError, Message(Paging.InvalidSort))
    ensures r.Reply? ==> r.status == Ok
    ensures r.Reply? ==> |r.value| <= |Rows(t)|
    ensures r.Reply? ==> forall i :: 0 <= i < |r.value| ==> r.value[i] == Summarize(Rows(t)[i])
    ensures r.Reply? ==> |r.value| == Paging.Cap(ListQuery(sortedBy, order, limit).limit, |Rows(t)|)
    ensures r.Reply? && limit.None? ==> |r.value| == Paging.Min(6, |Rows(t)|)
    ensures r.Reply? && limit == Some(0) ==> r.value == Summaries(Rows(t))
  {
    var q := ListQuery(sortedBy, order, limit);
    Paging.DefaultDirections();
    if !Paging.IsDirection(q.order) then
      Fail(ServerError, Message(Paging.InvalidSort))
    else
      Reply(Ok, Summaries(Paging.Window(Rows(t), q.skip, q.limit)))
  }

  /** The filter of `listRelated`: same category, other identifier. */
  predicate IsRelated(p: Product, q: Product) {
    q.category == p.category && q.id != p.id
  }

  /** What `find({ category, _id: { $ne } })` selects, in creation order. */
  function Related(t: Table<Product>, p: Product): (rs: seq<Product>)
    ensures forall q :: q in rs <==> q in Rows(t) && IsRelated(p, q)
  {
    Paging.Filter(Rows(t), q => IsRelated(p, q))
  }

  /** Summaries of stored products are summaries of stored products. */
  lemma SummariesOfStored(t: Table<Product>, ps: seq<Product>)
    requires forall q :: q in ps ==> q in t.rows.Values
    ensures forall s :: s in Summaries(ps) ==> exists q :: q in t.rows.Values && Summarize(q) == s
  {
    forall s | s in Summaries(ps) ensures exists q :: q in t.rows.Values && Summarize(q) == s {
      var i :| 0 <= i < |ps| && Summaries(ps)[i] == s;
      assert ps[i] in ps;
    }
  }

  lemma RelatedShownSound(t: Table<Product>, p: Product, shown: seq<Product>)
    requires forall q :: q in shown ==> q in Related(t, p)
    ensures forall s :: s in Summaries(shown) ==> s.category == p.category && s.id != p.id
    ensures forall s :: s in Summaries(shown) ==> exists q :: q in t.rows.Values && Summarize(q) == s
  {
    RowsSound(t);
    SummariesOfStored(t, shown);
    forall s | s in Summaries(shown) ensures s.category == p.category && s.id != p.id {
      var i :| 0 <= i < |shown| && Summaries(shown)[i] == s;
      assert shown[i] in shown;
    }
  }

  lemma RelatedAllShown(t: Table<Product>, p: Product)
    ensures Valid(t) ==> forall q :: q in t.rows.Values && IsRelated(p, q) ==>
      Summarize(q) in Summaries(Paging.Window(Related(t, p), 0, 0))
  {
    RowsComplete(t);
    var rs := Related(t, p);
    assert Paging.Window(rs, 0, 0) == rs;
    if Valid(t) {
      forall q | q in t.rows.Values && IsRelated(p, q) ensures Summarize(q) in Summaries(rs) {
        var i :| 0 <= i < |rs| && rs[i] == q;
        assert Summaries(rs)[i] == Summarize(q);
      }
    }
  }

  /** `listRelated`: products sharing `p`'s category, `p` itself excluded, at most `limit`. */
  function ListRelated(t: Table<Product>, p: Product, limit: Option<int>): (r: Response<seq<Summary>>)
    ensures r.Reply? && r.status == Ok
    ensures forall s :: s in r.value ==> s.category == p.category && s.id != p.id
    ensures forall s :: s in r.value ==> exists q :: q in t.rows.Values && Summarize(q) == s
    ensures |r.value| == Paging.Cap(limit.GetOr(RelatedLimit), |Related(t, p)|)
    ensures limit.None? ==> |r.value| <= RelatedLimit
    ensures limit == Some(0) && Valid(t) ==>
      forall q :: q in t.rows.Values && IsRelated(p, q) ==> Summarize(q) in r.value
  {
    var shown := Paging.Window(Related(t, p), 0, limit.GetOr(RelatedLimit));
    Paging.WindowWithin(Related(t, p), 0, limit.GetOr(RelatedLimit));
    RelatedShownSound(t, p, shown);
    RelatedAllShown(t, p);
    Reply(Ok, Summaries(shown))
  }

  /** A product just created is what its identifier now resolves to. */
  lemma CreatedIsShown(t: Table<Product>, body: Body, file: Option<File>)
    requires Valid(t)
    requires CreateProduct(t, body, file).response.Reply?
    ensures var p := CreateProduct(t, body, file).response.value;
      ShowProduct(CreateProduct(t, body, file).table, p.id) == Reply(Ok, p)
  {
  }

  /** Updating without a file, then updating again without a file, keeps the original image. */
  lemma ImageSurvivesUpdates(t: Table<Product>, id: Id, body1: Body, body2: Body)
    requires Consistent(t) && id in t.rows
    requires UpdateProductAt(t, id, body1, None).response.Reply?
    ensures var t1 := UpdateProductAt(t, id, body1, None).table;
      && id in t1.rows
      && t1.rows[id].image == t.rows[id].image
      && (UpdateProductAt(t1, id, body2, None).response.Reply? ==>
            UpdateProductAt(t1, id, body2, None).table.rows[id].image == t.rows[id].image)
  {
  }
}

=== FILE: schema.dfy ===
/**
 * The request-body validation the controllers delegate to Joi, restricted to
 * the rules they use: required keys, `string()` with optional `min`/`max`,
 * `number()`, and the object-level rejection of keys the schema does not name.
 * Checks run key by key in schema order and the first violation is reported,
 * as `error.details[0]` does.
 */
module Schema {
  import opened Wrappers
  import opened Json
  import Numerals

  /** Largest integer Joi's `number()` accepts without `unsafe()`. */
  const MaxSafeInteger: int := 9007199254740991

  datatype Kind =
    | Text(min: nat, max: Option<nat>)
    | Number

  datatype Field = Field(key: string, kind: Kind)

  /** The first constraint a body breaks. */
  datatype Violation =
    | Required(key: string)
    | NotAString(key: string)
    | EmptyString(key: string)
    | TooShort(key: string, min: nat)
    | TooLong(key: string, max: nat)
    | NotANumber(key: string)
    | UnsafeNumber(key: string)
    | NotAllowed(keys: set<string>)

  /** Joi's number conversion: a number, or a string holding a decimal integer. */
  function AsNumber(v: Value): (r: Option<int>)
    ensures v.VNum? ==> r == Some(v.n)
    ensures v.VStr? ==> r == Numerals.Parse(v.s)
    ensures !v.VNum? && !v.VStr? ==> r.None?
  {
    match v
    case VNum(n) => Some(n)
    case VStr(s) => Numerals.Parse(s)
    case _ => None
  }

  /** What a value must be to satisfy a field kind, stated without an error order. */
  ghost predicate Conforms(kind: Kind, v: Value) {
    match kind
    case Text(min, max) =>
      v.VStr? && v.s != "" && min <= |v.s| && (max.Some? ==> |v.s| <= max.value)
    case Number =>
      AsNumber(v).Some? && -MaxSafeInteger <= AsNumber(v).value <= MaxSafeInteger
  }

  function Check(key: string, kind: Kind, v: Value): (r: Option<Violation>)
    ensures r.None? <==> Conforms(kind, v)
    ensures r.Some? ==> !r.value.NotAllowed? && r.value.key == key
  {
    match kind
    case Text(min, max) =>
      if !v.VStr? then Some(NotAString(key))
      else if v.s == "" then Some(EmptyString(key))
      else if |v.s| < min then Some(TooShort(key, min))
      else if max.Some? && |v.s| > max.value then Some(TooLong(key, max.value))
      else None
    case Number =>
      match AsNumber(v)
      case None => Some(NotANumber(key))
      case Some(n) => if -MaxSafeInteger <= n <= MaxSafeInteger then None else Some(UnsafeNumber(key))
  }

  function Keys(schema: seq<Field>): (ks: set<string>)
    ensures forall i :: 0 <= i < |schema| ==> schema[i].key in ks
    ensures forall k :: k in ks ==> exists i :: 0 <= i < |schema| && schema[i].key == k
  {
    set i | 0 <= i < |schema| :: schema[i].key
  }

  /** The first declared field that is missing or malformed. */
  function FieldViolation(schema: seq<Field>, body: Body): (r: Option<Violation>)
    ensures r.None? <==>
      forall i :: 0 <= i < |schema| ==> schema[i].key in body && Conforms(schema[i].kind, body[schema[i].key])
    ensures r.Some? ==> !r.value.NotAllowed?
    ensures r.Some? && r.value.Required? ==> r.value.key !in body
  {
    if schema == [] then None
    else
      var f := schema[0];
      if f.key !in body then Some(Required(f.key))
      else match Check(f.key, f.kind, body[f.key])
        case Some(v) => Some(v)
        case None =>
          var rest := FieldViolation(schema[1..], body);
          assert forall i :: 1 <= i < |schema| ==> schema[i] == schema[1..][i - 1];
          rest
  }

  /** Everything a body must satisfy to pass the schema. */
  ghost predicate Admits(schema: seq<Field>, body: Body) {
    && (forall i :: 0 <= i < |schema| ==> schema[i].key in body && Conforms(schema[i].kind, body[schema[i].key]))
    && body.Keys <= Keys(schema)
  }

  /** `schema.validate(body).error`: the first violation, or none. */
  function Validate(schema: seq<Field>, body: Body): (r: Option<Violation>)
    ensures r.None? <==> Admits(schema, body)
    ensures r.Some? && r.value.NotAllowed? ==> r.value.keys == body.Keys - Keys(schema) != {}
    ensures r.Some? && r.value.NotAllowed? ==>
      forall i :: 0 <= i < |schema| ==> schema[i].key in body && Conforms(schema[i].kind, body[schema[i].key])
  {
    match FieldViolation(schema, body)
    case Some(v) => Some(v)
    case None =>
      var extra := body.Keys - Keys(schema);
      if extra == {} then
        assert forall k :: k in body.Keys ==> k in Keys(schema) by {
          forall k | k in body.Keys ensures k in Keys(schema) {
            assert k !in extra;
          }
        }
        None
      else
        Some(NotAllowed(extra))
  }
}

=== FILE: search.dfy ===
/**
 * `searchProduct`: build the store filter from the request's `filters`
 * object, then answer with the matching products (images left out) and
 * their count.
 */
module ProductSearch {
  import opened Wrappers
  import opened Json
  import opened Store
  import opened Http
  import Paging
  import opened ProductController

  /** One condition of the store filter. */
  datatype Condition =
    | Between(low: Value, high: Option<Value>)  // `{ $gte: low, $lte: high }`; no `high` when the list has one value
    | Among(values: seq<Value>)                  // the field holds one of the listed values

  /** The request's `filters`: a list of wanted values per field. */
  type Filters = map<string, seq<Value>>

  /** The `findArgs` object handed to the store. */
  type FindArgs = map<string, Condition>

  datatype SearchRequest = SearchRequest(
    filters: Filters,
    sortBy: Option<string>,
    order: Option<string>,
    limit: Option<int>,
    skip: Option<int>)

  /** The body of a search response. */
  datatype Found = Found(size: nat, data: seq<Summary>)

  const PriceKey: string := "price"
  const SearchOrder: string := "desc"
  const SearchSortBy: string := "_id"
  const SearchLimit: int := 100
  const SearchFailed: string := "Products not found"

  /** `v[1]`, which is `undefined` for a one-element list. */
  function Upper(vs: seq<Value>): Option<Value>
    requires |vs| > 0
  {
    if |vs| > 1 then Some(vs[1]) else None
  }

  /** What `findArgs` must be for `filters`: empty lists dropped, `price` a range, the rest copied. */
  ghost predicate Built(filters: Filters, args: FindArgs) {
    && (forall k :: k in args <==> k in filters && |filters[k]| > 0)
    && (PriceKey in args ==> args[PriceKey] == Between(filters[PriceKey][0], Upper(filters[PriceKey])))
    && (forall k :: k in args && k != PriceKey ==> args[k] == Among(filters[k]))
  }

  /** The loop of `searchProduct` over the keys of `filters`. */
  method BuildFindArgs(filters: Filters) returns (args: FindArgs)
    ensures forall k :: k in args <==> k in filters && |filters[k]| > 0
    ensures PriceKey in args ==> args[PriceKey] == Between(filters[PriceKey][0], Upper(filters[PriceKey]))
    ensures forall k :: k in args && k != PriceKey ==> args[k] == Among(filters[k])
  {
    args := map[];
    var todo := filters.Keys;
    while todo != {}
      invariant todo <= filters.Keys
      invariant forall k :: k in args <==> k in filters && k !in todo && |filters[k]| > 0
      invariant PriceKey in args ==> args[PriceKey] == Between(filters[PriceKey][0], Upper(filters[PriceKey]))
      invariant forall k :: k in args && k != PriceKey ==> args[k] == Among(filters[k])
      decreases todo
    {
      var key :| key in todo;
      if |filters[key]| > 0 {
        if key == PriceKey {
          args := args[key := Between(filters[key][0], Upper(filters[key]))];
        } else {
          args := args[key := Among(filters[key])];
        }
      }
      todo := todo - {key};
    }
  }

  /** The value a filter key reads from a product; unknown keys read nothing. */
  function FieldOf(p: Product, key: string): Option<Value> {
    if key == "_id" then Some(VNum(p.id))
    else if key == "name" then Some(VStr(p.name))
    else if key == "description" then Some(VStr(p.description))
    else if key == PriceKey then Some(VNum(p.price))
    else if key == "quantity" then Some(VNum(p.quantity))
    else if key == "category" then Some(VStr(p.category))
    else if key == "image" then Some(VStr(p.image))
    else None
  }

  predicate Satisfies(p: Product, key: string, c: Condition) {
    var field := FieldOf(p, key);
    match c
    case Between(low, high) =>
      && field.Some? && field.value.VNum?
      && low.VNum? && low.n <= field.value.n
      && high.Some? && high.value.VNum? && field.value.n <= high.value.n
    case Among(values) =>
      field.Some? && field.value in values
  }

  /** The store's reading of `find(findArgs)`: every condition holds. */
  predicate Matches(p: Product, args: FindArgs) {
    forall k :: k in args ==> Satisfies(p, k, args[k])
  }

  /** A price inside the inclusive range `[vs[0], vs[1]]`. */
  ghost predicate InPriceRange(p: Product, vs: seq<Value>) {
    |vs| >= 2 && vs[0].VNum? && vs[1].VNum? && vs[0].n <= p.price <= vs[1].n
  }

  /** The products a search asks for, read directly off the request's filters. */
  ghost predicate Wanted(filters: Filters, p: Product) {
    forall k :: k in filters && |filters[k]| > 0 ==>
      if k == PriceKey then InPriceRange(p, filters[k])
      else FieldOf(p, k).Some? && FieldOf(p, k).value in filters[k]
  }

  /** The filter the builder produces selects exactly the wanted products. */
  lemma MatchesIffWanted(filters: Filters, args: FindArgs, p: Product)
    requires Built(filters, args)
    ensures Matches(p, args) <==> Wanted(filters, p)
  {
    if Matches(p, args) {
      forall k | k in filters && |filters[k]| > 0
        ensures if k == PriceKey then InPriceRange(p, filters[k])
                else FieldOf(p, k).Some? && FieldOf(p, k).value in filters[k]
      {
        assert Satisfies(p, k, args[k]);
      }
    }
    if Wanted(filters, p) {
      forall k | k in args ensures Satisfies(p, k, args[k]) {
        if k == PriceKey {
          assert InPriceRange(p, filters[k]);
        }
      }
    }
  }

  /** The query `searchProduct` issues: `_id`, descending, 100 records unless the request says otherwise. */
  function SearchQuery(req: SearchRequest): (q: Query)
    ensures req.order.None? ==> q.order == SearchOrder
    ensures req.sortBy.None? ==> q.sortBy == SearchSortBy
    ensures req.limit.None? ==> q.limit == SearchLimit
    ensures req.limit.Some? ==> q.limit == req.limit.value
    ensures req.order.Some? && req.order.value != "" ==> q.order == req.order.value
    ensures req.sortBy.Some? && req.sortBy.value != "" ==> q.sortBy == req.sortBy.value
    ensures req.skip.Some? ==> q.skip == req.skip.value
    ensures req.skip.None? ==> q.skip == 0
  {
    Query(OrDefault(req.sortBy, SearchSortBy), OrDefault(req.order, SearchOrder),
          req.limit.GetOr(SearchLimit), req.skip.GetOr(0))
  }

  /** `find(findArgs)` over the collection, in creation order. */
  function Hits(t: Table<Product>, args: FindArgs): (hs: seq<Product>)
    ensures forall p :: p in hs <==> p in Rows(t) && Matches(p, args)
  {
    Paging.Filter(Rows(t), p => Matches(p, args))
  }

  lemma ShownAreWanted(t: Table<Product>, filters: Filters, args: FindArgs, shown: seq<Product>)
    requires Built(filters, args)
    requires forall p :: p in shown ==> p in Hits(t, args)
    ensures forall s :: s in Summaries(shown) ==>
      exists p :: p in t.rows.Values && Wanted(filters, p) && Summarize(p) == s
  {
    RowsSound(t);
    forall s | s in Summaries(shown)
      ensures exists p :: p in t.rows.Values && Wanted(filters, p) && Summarize(p) == s
    {
      var i :| 0 <= i < |shown| && Summaries(shown)[i] == s;
      var p := shown[i];
      assert p in shown;
      MatchesIffWanted(filters, args, p);
    }
  }

  lemma AllWantedHit(t: Table<Product>, filters: Filters, args: FindArgs)
    requires Built(filters, args)
    ensures Valid(t) ==> forall p :: p in t.rows.Values && Wanted(filters, p) ==>
      Summarize(p) in Summaries(Hits(t, args))
  {
    RowsComplete(t);
    var hs := Hits(t, args);
    if Valid(t) {
      forall p | p in t.rows.Values && Wanted(filters, p) ensures Summarize(p) in Summaries(hs) {
        MatchesIffWanted(filters, args, p);
        assert p in hs;
        var i :| 0 <= i < |hs| && hs[i] == p;
        assert Summaries(hs)[i] == Summarize(p);
      }
    }
  }

  /** `searchProduct`: the wanted products in the requested window, and how many were returned. */
  method SearchProducts(t: Table<Product>, req: SearchRequest) returns (r: Response<Found>)
    ensures r.Reply? <==> Paging.IsDirection(SearchQuery(req).order) && SearchQuery(req).skip >= 0
    ensures !Paging.IsDirection(SearchQuery(req).order) ==> r == Fail(ServerError, Message(Paging.InvalidSort))
    ensures Paging.IsDirection(SearchQuery(req).order) && SearchQuery(req).skip < 0 ==>
      r == Fail(BadRequest, Message(SearchFailed))
    ensures req.order.None? && SearchQuery(req).skip >= 0 ==> r.Reply?
    ensures r.Reply? ==> r.status == Ok && r.value.size == |r.value.data|
    ensures r.Reply? ==> forall s :: s in r.value.data ==>
      exists p :: p in t.rows.Values && Wanted(req.filters, p) && Summarize(p) == s
    ensures r.Reply? && SearchQuery(req).limit != 0 ==> |r.value.data| <= Paging.Abs(SearchQuery(req).limit)
    ensures r.Reply? && Valid(t) && SearchQuery(req).skip == 0 && SearchQuery(req).limit == 0 ==>
      forall p :: p in t.rows.Values && Wanted(req.filters, p) ==> Summarize(p) in r.value.data
  {
    var q := SearchQuery(req);
    var args := BuildFindArgs(req.filters);
    Paging.DefaultDirections();
    if !Paging.IsDirection(q.order) {
      return Fail(ServerError, Message(Paging.InvalidSort));
    }
    if q.skip < 0 {
      return Fail(BadRequest, Message(SearchFailed));
    }
    assert Built(req.filters, args);
    var hits := Hits(t, args);
    var shown := Paging.Window(hits, q.skip, q.limit);
    Paging.WindowWithin(hits, q.skip, q.limit);
    ShownAreWanted(t, req.filters, args, shown);
    AllWantedHit(t, req.filters, args);
    if q.skip == 0 && q.limit == 0 {
      assert shown == hits;
    }
    r := Reply(Ok, Found(|shown|, Summaries(shown)));
  }
}

=== FILE: slug.dfy ===
/**
 * The slug derived from a category name, after the `slugify` library with its
 * default options: the replacement character and whitespace both separate
 * words, separators at either end are dropped, and each inner run of them
 * becomes one '-'. Letter case is kept (the default `lower` option is off).
 * Whitespace is JavaScript's `\s`, which is also what `trim` removes. The
 * library's Unicode normalisation, its character map and its removal of the
 * characters its default pattern does not allow are not part of this model.
 */
module Slug {

  const Replacement: char := '-'

  /** JavaScript's `\s`: tab to carriage return, the Unicode space separators, the line and paragraph separators, and BOM. */
  predicate IsWhitespace(c: char) {
    || c == ' ' || '\t' <= c <= '\r'
    || c == '\U{00A0}' || c == '\U{1680}' || '\U{2000}' <= c <= '\U{200A}'
    || c == '\U{2028}' || c == '\U{2029}' || c == '\U{202F}' || c == '\U{205F}'
    || c == '\U{3000}' || c == '\U{FEFF}'
  }

  predicate IsSeparator(c: char) {
    IsWhitespace(c) || c == Replacement
  }

  /** A non-empty run of characters none of which separates words. */
  predicate IsWord(w: string) {
    w != [] && forall i :: 0 <= i < |w| ==> !IsSeparator(w[i])
  }

  /** Length of the word `s` starts with: up to the first separator or the end. */
  function WordLength(s: string): (n: nat)
    requires s != [] && !IsSeparator(s[0])
    ensures 1 <= n <= |s|
    ensures forall i :: 0 <= i < n ==> !IsSeparator(s[i])
    ensures n < |s| ==> IsSeparator(s[n])
    decreases |s|
  {
    if |s| == 1 || IsSeparator(s[1]) then 1 else 1 + WordLength(s[1..])
  }

  /** The words of `s`, in order. */
  function Words(s: string): (ws: seq<string>)
    ensures forall i :: 0 <= i < |ws| ==> IsWord(ws[i])
    decreases |s|
  {
    if s == [] then []
    else if IsSeparator(s[0]) then Words(s[1..])
    else
      var n := WordLength(s);
      [s[..n]] + Words(s[n..])
  }

  function Join(ws: seq<string>): string {
    if ws == [] then ""
    else if |ws| == 1 then ws[0]
    else ws[0] + [Replacement] + Join(ws[1..])
  }

  /** `slugify(name)`. */
  function Slugify(name: string): string {
    Join(Words(name))
  }

  lemma WordLengthIs(s: string, m: nat)
    requires s != [] && !IsSeparator(s[0])
    requires 1 <= m <= |s|
    requires forall i :: 0 <= i < m ==> !IsSeparator(s[i])
    requires m < |s| ==> IsSeparator(s[m])
    ensures WordLength(s) == m
  {
  }

  lemma {:induction false} JoinHasNoWhitespace(ws: seq<string>)
    requires forall i :: 0 <= i < |ws| ==> IsWord(ws[i])
    ensures forall i :: 0 <= i < |Join(ws)| ==> !IsWhitespace(Join(ws)[i])
  {
    if |ws| > 1 {
      JoinHasNoWhitespace(ws[1..]);
      var head, tail := ws[0] + [Replacement], Join(ws[1..]);
      assert Join(ws) == head + tail;
      forall i | 0 <= i < |Join(ws)|
        ensures !IsWhitespace(Join(ws)[i])
      {
        if i >= |head| {
          assert Join(ws)[i] == tail[i - |head|];
        }
      }
    }
  }

  /** A slug never contains whitespace. */
  lemma SlugHasNoWhitespace(name: string)
    ensures forall i :: 0 <= i < |Slugify(name)| ==> !IsWhitespace(Slugify(name)[i])
  {
    JoinHasNoWhitespace(Words(name));
  }

  lemma {:induction false} WordsOfJoin(ws: seq<string>)
    requires forall i :: 0 <= i < |ws| ==> IsWord(ws[i])
    ensures Words(Join(ws)) == ws
    decreases |ws|
  {
    if |ws| == 1 {
      var w := ws[0];
      WordLengthIs(w, |w|);
      assert w[..|w|] == w && w[|w|..] == [];
    } else if |ws| > 1 {
      var w, rest := ws[0], Join(ws[1..]);
      var s := w + [Replacement] + rest;
      assert Join(ws) == s;
      WordLengthIs(s, |w|);
      assert s[..|w|] == w;
      assert s[|w|..][1..] == rest;
      WordsOfJoin(ws[1..]);
      assert Words(s[|w|..]) == Words(rest);
      assert ws == [w] + ws[1..];
    }
  }

  /** A slug is its own slug. */
  lemma SlugifyIdempotent(name: string)
    ensures Slugify(Slugify(name)) == Slugify(name)
  {
    WordsOfJoin(Words(name));
  }
}

=== FILE: store.dfy ===
/**
 * The document collection a controller works against: records keyed by an
 * identifier the store assigns on creation. Identifiers grow with every
 * creation, so ascending identifier order is creation order, which is the
 * order the collection returns records in when no other sort applies.
 */
module Store {
  import opened Wrappers

  type Id = nat

  datatype Table<R> = Table(rows: map<Id, R>, nextId: Id)

  /** Every stored identifier was handed out before `nextId`. */
  ghost predicate Valid<R>(t: Table<R>) {
    forall id :: id in t.rows ==> id < t.nextId
  }

  function Find<R>(t: Table<R>, id: Id): (r: Option<R>)
    ensures r.Some? <==> id in t.rows
    ensures r.Some? ==> r.value == t.rows[id]
  {
    if id in t.rows then Some(t.rows[id]) else None
  }

  /** Stores `r` under the next fresh identifier. */
  function Insert<R>(t: Table<R>, r: R): (t': Table<R>)
    ensures t'.rows == t.rows[t.nextId := r] && t'.nextId == t.nextId + 1
    ensures Valid(t) ==> Valid(t') && t.nextId !in t.rows
  {
    Table(t.rows[t.nextId := r], t.nextId + 1)
  }

  /** `save` of a record loaded under `id`: the record is written back under the same identifier. */
  function Replace<R>(t: Table<R>, id: Id, r: R): (t': Table<R>)
    ensures t'.rows == t.rows[id := r] && t'.nextId == t.nextId
    ensures Valid(t) && id < t.nextId ==> Valid(t')
  {
    Table(t.rows[id := r], t.nextId)
  }

  function Delete<R>(t: Table<R>, id: Id): (t': Table<R>)
    ensures t'.rows == t.rows - {id} && t'.nextId == t.nextId
    ensures Valid(t) ==> Valid(t')
  {
    Table(t.rows - {id}, t.nextId)
  }

  /** The records stored under identifiers `0 .. to-1`, in identifier order. */
  function Scan<R>(rows: map<Id, R>, to: nat): seq<R>
    decreases to
  {
    if to == 0 then []
    else Scan(rows, to - 1) + (if to - 1 in rows then [rows[to - 1]] else [])
  }

  /** The whole collection in creation order. */
  function Rows<R>(t: Table<R>): seq<R> {
    Scan(t.rows, t.nextId)
  }

  lemma {:induction false} ScanSound<R>(rows: map<Id, R>, to: nat, r: R)
    requires r in Scan(rows, to)
    ensures r in rows.Values
  {
    if to > 0 && r !in Scan(rows, to - 1) {
      assert to - 1 in rows && r == rows[to - 1];
    } else if to > 0 {
      ScanSound(rows, to - 1, r);
    }
  }

  lemma {:induction false} ScanComplete<R>(rows: map<Id, R>, to: nat, id: Id)
    requires id < to && id in rows
    ensures rows[id] in Scan(rows, to)
  {
    if id < to - 1 {
      ScanComplete(rows, to - 1, id);
    }
  }

  lemma {:induction false} ScanAgrees<R>(rows: map<Id, R>, rows': map<Id, R>, to: nat)
    requires forall id :: id < to ==> (id in rows <==> id in rows')
    requires forall id :: id < to && id in rows ==> rows[id] == rows'[id]
    ensures Scan(rows, to) == Scan(rows', to)
  {
    if to > 0 {
      ScanAgrees(rows, rows', to - 1);
    }
  }

  /** Everything listed is stored. */
  lemma RowsSound<R>(t: Table<R>)
    ensures forall r :: r in Rows(t) ==> r in t.rows.Values
  {
    forall r | r in Rows(t) ensures r in t.rows.Values {
      ScanSound(t.rows, t.nextId, r);
    }
  }

  /** Listing a valid collection yields exactly its stored records. */
  lemma RowsExactly<R>(t: Table<R>)
    requires Valid(t)
    ensures forall r :: r in Rows(t) <==> r in t.rows.Values
  {
    RowsSound(t);
    forall r | r in t.rows.Values ensures r in Rows(t) {
      var id :| id in t.rows && t.rows[id] == r;
      ScanComplete(t.rows, t.nextId, id);
    }
  }

  /** A valid collection lists every stored record. */
  lemma RowsComplete<R>(t: Table<R>)
    ensures Valid(t) ==> forall r :: r in t.rows.Values ==> r in Rows(t)
  {
    if Valid(t) {
      RowsExactly(t);
    }
  }

  /** A newly created record is listed after every existing one. */
  lemma RowsAfterInsert<R>(t: Table<R>, r: R)
    requires Valid(t)
    ensures Rows(Insert(t, r)) == Rows(t) + [r]
  {
    var t' := Insert(t, r);
    ScanAgrees(t.rows, t'.rows, t.nextId);
  }
}

=== FILE: wrappers.dfy ===
/** Optional values and results shared by every module of the model. */
module Wrappers {

  /** An optional value: a missing request field, an absent file, a lookup miss. */
  datatype Option<+T> = None | Some(value: T) {

    /** The wrapped value, or `default` when there is none. */
    function GetOr(default: T): T {
      match this
      case Some(v) => v
      case None => default
    }
  }

  /** Either a value or an error describing why there is none. */
  datatype Result<+T, +E> = Success(value: T) | Failure(error: E)
}
